=== FILE: README.md ===
# DocVault sync engine in Dafny

DocVault keeps a user's documents in a local vault: a SQLite `files` table plus a directory of blob copies. The vault stays usable offline and reconciles with a remote store (an Appwrite storage bucket plus a `files` metadata collection) when it is online. This project models the bookkeeping and sync engine of the `DocumentVault` class:

- adding a file, which copies it, inserts a row and pushes at once when online;
- the sync cycle `sync_data`, which pushes new rows, runs the `sync_modified_files` stub and pulls remote documents;
- the single-flight flag and the `periodic_sync` trigger;
- deleting a file;
- the row filter of `load_files`;
- the tag toggle of `load_tags`;
- the icon classifiers.

SQLite, Appwrite and the file system are abstracted away:

- The `files` table is a `map<Id, FileRecord>`.
- The vault directory is a set of paths.
- Every remote or file-system call that can fail is a parameter that says how it went:
  - an `UploadOutcome` per pushed row;
  - a `ListResult` with a per-document `fetched` flag for the pull;
  - `removeSucceeds` and a `RemoteDelete` outcome for a delete.
- Clock readings (`now`, `finished`), generated ids and timestamps are parameters too.

Modules:

- `Text` (text.dfy): substring test, comma join and split, ASCII `lower`.
- `SqlLike` (sql_like.dfy): the `LIKE '%x%'` matcher.
- `Records` (records.dfy): the row, the status, the store, the vault, the invariants and the tag codec.
- `Sync` (sync.dfy): the push, the pull, the cycle and the timer.
- `Commands` (commands.dfy): add and delete.
- `Listing` (listing.dfy): the `load_files` filter and the tag toggle.
- `Icons` (icons.dfy): `get_file_icon` and `get_sync_icon`.
- `Invariants` (invariants.dfy): properties of every reachable state.

In several places the code behaves differently from what its names, docstrings and comments suggest. The model follows the code, and each expectation is named here:

- **Offline rows are never retried.** The status name `offline` and the docstring "queue for sync" (main_final_fixed.py:242) suggest a row waiting for the next connection. But the push selects only rows with status `new` (main_final_fixed.py:595). A row marked `offline` stays offline for good. This includes a file added while offline. `Invariants.OfflineAddIsNeverUploaded` proves it.
- **No row stays `new`.** A push phase in every cycle suggests that `new` rows pile up between cycles. But an add while online calls `sync_new_files` straight away (main_final_fixed.py:273-274). So no command leaves a row in status `new` (`Invariants.AddLeavesNothingNew` and the lemmas after it). In every state the modelled commands reach from an empty table, the push phase of `sync_data` uploads nothing (`Invariants.CycleNeverRetries`). Outside the model this can differ: a `new` row committed just before the application stops is uploaded by the next session's first cycle, and an add can interleave with a running periodic cycle.
- **A failed pull still advances `last_sync_time`.** The name suggests the time of the last successful sync. But `download_cloud_changes` swallows its own exceptions (main_final_fixed.py:697-698).
- **`last_sync_time` is the end time.** It is read after the three phases (main_final_fixed.py:581), not at the start of the cycle.
- **Half-done uploads leave an orphan.** One might expect an upload to be all or nothing. Suppose the blob upload succeeds but creating the metadata document fails. The row then becomes `offline` without its storage id, and the remote blob is orphaned (`DocumentNotCreated`).
- **Pulled rows take the remote creation time.** The column name `uploaded_at` suggests the pushed field is read back. But a pulled row's `uploaded_at` is the remote's `$createdAt`, not the `uploaded_at` field the push wrote.
- **Deleting an unknown id is silent.** One might expect an error. It changes nothing and raises no error.

## Model

| member | source | states |
|---|---|---|
| SqlLike.ContainsPatternMeansSubstring | main_final_fixed.py:296-305 | `s LIKE '%x%'` holds exactly when `x` occurs in `s` as a substring (both directions). |
| Records.TagsRoundTrip | main_final_fixed.py:620 | Turning the stored tag string into the remote's list (`split` unless empty) and joining it back gives the same string, for every string. |
| Records.SelectedTagsRoundTrip | main_final_fixed.py:264 | The comma-join of a selection of non-empty, comma-free tags reaches the remote as exactly that list. |
| Sync.SyncNewFiles | main_final_fixed.py:592-642 | Only rows in status `new` change, and only in status and storage id. An upload success sets the storage id and `synced`. Any failure sets `offline` and keeps the storage id. Rows in other statuses, `offline` included, are untouched. Afterwards no row is `new`. |
| Sync.SyncNewFilesInRowOrder | main_final_fixed.py:595-599 | Looping over the rows the `SELECT` returned, in their order, gives the same table as the order-free description `SyncNewFiles`. |
| Sync.SyncModifiedFiles | main_final_fixed.py:644-647 | The stub changes no row; a `modified` row stays `modified`. |
| Sync.UploadThenPull | main_final_fixed.py:611-624 | A pushed row, pulled back from the document it created, has the same name, type, size, folder, tags and blob path. It is `synced` with the same storage id; only its timestamp becomes the remote's creation time. |
| Sync.PullEntries | main_final_fixed.py:662-696 | Existing rows are never modified. Every inserted row comes from a listed document with an absent id, a `storage_id` and a successful download. It is `synced` with `cloud_id` = `storage_id`. A pull that does not stop leaves every listed id present. A pull that stops does so at a listed, absent document whose download failed. Existing blobs stay. Every inserted row's blob is saved, and every new blob belongs to an inserted row. |
| Sync.DownloadCloudChanges | main_final_fixed.py:649-698 | Offline, or when listing raises, nothing changes. Otherwise existing rows are kept as they are and new ones come only from listed, fetched documents. A pull that does not stop leaves every listed id present. When every listed download succeeds, every listed document ends up with a row, and each one that was absent is inserted as `synced`. Existing blobs stay. Every inserted row's blob is saved, and every new blob belongs to an inserted row. |
| Sync.PullAppend | main_final_fixed.py:662-698 | Documents are processed in listing order: a batch is its first part followed, unless that part stopped, by the rest. |
| Sync.FailureStopsBatch | main_final_fixed.py:668-698 | The first absent document whose fetch fails ends the batch. Rows inserted before it stay; documents after it are not looked at. |
| Sync.PullSkipsPresent | main_final_fixed.py:663-668 | When every listed id is already present, the pull changes nothing, whatever the fetch outcomes. |
| Sync.PullIdempotent | main_final_fixed.py:662-696 | Re-running the pull on the same listing gives the same result. It never inserts a second row for an id. |
| Sync.CompletedPullIsFinal | main_final_fixed.py:662-668 | After a pull that did not stop, pulling the same documents again inserts nothing, whatever the fetch outcomes. |
| Sync.SyncData | main_final_fixed.py:565-590 | Offline or in progress: nothing changes. Otherwise `sync_in_progress` ends false, `last_sync_time` becomes the clock reading whatever the pull did, and no row is `new`. Existing rows keep their content. Rows not `new` are untouched. Each `new` row takes the update its own upload outcome calls for: `synced` with the storage id, or `offline`. The store is then exactly what the pull makes of the pushed table. Inserted rows are `synced`. |
| Sync.SingleFlight | main_final_fixed.py:567-588 | Starting a cycle sets `sync_in_progress`; a trigger while a cycle is running does nothing, and a cycle always ends with `sync_in_progress` false. |
| Sync.SyncIdempotent | main_final_fixed.py:565-590 | After a cycle no upload is pending. A second cycle with any upload outcomes and the same listing leaves the store unchanged. |
| Sync.PeriodicTickGate | main_final_fixed.py:558-563 | A wake-up while offline, or no more than `SYNC_INTERVAL` (300 s) after the last sync, does nothing. Otherwise it runs `sync_data`. |
| Sync.NoCycleWithinInterval | main_final_fixed.py:561-581 | After a periodic cycle that finishes at `t`, no wake-up up to `t + 300` starts another one. |
| Commands.InsertFile | main_final_fixed.py:243-270 | The blob is copied to `docvault_files/<id>_<name>`. If the id is free, exactly one row is inserted. It has the file's name, size and guessed type, the given timestamp, that blob path, no storage id, status `new` if online and `offline` otherwise, the current folder and the comma-join of the selected tags. Other rows are unchanged. A failed read or a taken id inserts nothing. |
| Commands.AddFileToVault | main_final_fixed.py:241-282 | The new row has the file's name, size, type, timestamp and blob path, the current folder and the joined tags. Offline, it is `offline` with no storage id and all other rows are unchanged. Online, the immediate push leaves it `synced` with the returned storage id or `offline` without one. Every other row that was `new` takes its own upload outcome, the rest are unchanged, and no row is `new`. Whenever the file is read, exactly its one copy is added to the vault directory, even when the id is taken. The current folder, tag selection and search text are unchanged. |
| Commands.DeleteFile | main_final_fixed.py:425-464 | An unknown id changes nothing. A failing blob removal keeps the row. Otherwise the row and its blob go, every other row is unchanged, and the remote deletes are made exactly when online with a non-empty storage id. The storage file is deleted first, and the document is deleted only when that call succeeded. |
| Commands.DeleteIgnoresRemote | main_final_fixed.py:442-455 | The local effect of a delete is the same whatever the remote deletes did. |
| Listing.QueryMeansListed | main_final_fixed.py:293-305 | The built `WHERE` clause selects a row exactly when all of these hold: its folder is the current one; its name contains the search text, if there is one; its tags contain some selected tag, if any is selected. |
| Listing.LoadFiles | main_final_fixed.py:285-308 | The listed rows are exactly the table's rows meeting that description, unchanged. |
| Listing.SelectingAnAddedTagFindsTheRecord | main_final_fixed.py:300-305 | A row added with a tag selection is listed when any one of those tags is selected. |
| Listing.FirstIndex | main_final_fixed.py:509-510 | `list.remove` acts on the first occurrence: the index holds the value and no earlier one does. |
| Listing.ToggleTag | main_final_fixed.py:508-512 | A selected tag loses its first occurrence and the remaining tags keep their order (so the multiset shrinks by exactly that tag). An unselected tag is appended. |
| Listing.ToggleFlipsOnlyTheTag | main_final_fixed.py:508-512 | On a selection without duplicates, toggling flips the tag's membership, no other tag's, and keeps it duplicate-free. |
| Listing.ToggleTwice | main_final_fixed.py:508-512 | Toggling twice restores an unselected tag's selection exactly. For a duplicate-free selection it restores it up to order. |
| Icons.FileIconIsFirstMatch | main_final_fixed.py:370-391 | A missing or empty type gets the generic icon. Otherwise the icon is the first category, in the source's order, one of whose keywords occurs in the lower-cased type, or the generic icon if none does. |
| Icons.FileIconIgnoresCase | main_final_fixed.py:375 | The icon does not depend on the case of ASCII letters in the type. |
| Icons.SyncIconFor | main_final_fixed.py:393-402 | Any status text other than `synced`, `modified` and `new` shows the grey offline indicator. |
| Icons.SyncIconsDistinct | main_final_fixed.py:393-402 | The four statuses show four different indicators. |
| Invariants.AddKeepsConsistent | main_final_fixed.py:255-274 | Add keeps "synced exactly when a storage id is set". |
| Invariants.SyncNewFilesKeepsConsistent | main_final_fixed.py:627-641 | The push keeps that invariant. |
| Invariants.DownloadKeepsConsistent | main_final_fixed.py:670-695 | The pull keeps it: a row is inserted only after its blob was downloaded by `storage_id`, and it is stored with that id as `synced`. |
| Invariants.DocumentWithoutStorageIdIsNotInserted | main_final_fixed.py:668-673 | An absent listed document without a `storage_id` ends the pull before any row is inserted for it or after it. |
| Invariants.DeleteKeepsConsistent | main_final_fixed.py:454 | Delete keeps the invariant. |
| Invariants.SyncDataKeepsConsistent | main_final_fixed.py:565-590 | A whole cycle keeps the invariant. |
| Invariants.AddLeavesNothingNew | main_final_fixed.py:268-274 | From a table with no `new` row, an add leaves none. |
| Invariants.DeleteLeavesNothingNew | main_final_fixed.py:454 | Delete leaves no `new` row behind. |
| Invariants.SyncDataLeavesNothingNew | main_final_fixed.py:573-595 | A cycle leaves no `new` row behind. |
| Invariants.CycleNeverRetries | main_final_fixed.py:595 | With no `new` row, a cycle has nothing to upload and leaves every existing row as it was, `offline` rows included. |
| Invariants.OfflineAddIsNeverUploaded | main_final_fixed.py:268-274 | A file added offline is `offline` with no storage id. A later cycle, once online, leaves it so. |

## Left out

- The Flet user interface is not modelled: `create_ui`, snack bars, the `DataTable` rows, the file picker in `upload_file`, `open_file`, `download_file`, `manual_sync`'s messages, and the rendering parts of `load_folders` and `load_tags`. A manual sync is `Sync.SyncData` itself.
- `format_size` is left out because it is float division and string formatting.
- `init_local_storage` and `init_appwrite_client` are left out: they create the schema and the SDK clients.
- `check_connection` is left out because the `list_buckets` probe is a foreign call. `online` is a field of the vault state.
- The `asyncio` loop of `periodic_sync` (`while True`, `sleep(30)`) and any real concurrency are not modelled. One wake-up is `Sync.PeriodicTick`. Single flight is only the boolean guard over sequential calls.
- SQLite errors are not modelled: the table is an infallible map. So no exception escapes the phases of a cycle, and the `except` branch of `sync_data` (main_final_fixed.py:584-586) is unreachable in the model. With that assumption, "`last_sync_time` advances only if no exception escapes" becomes "it always advances when a cycle runs".
- The order of rows returned by the push's `SELECT` is a parameter only of `Sync.SyncNewFilesInRowOrder`. Elsewhere the push is order-free, since each row's `UPDATE` touches only that row.
- The remote `list_documents` query (`$updatedAt` greater than `last_sync_time`) is not evaluated. Its answer is the `ListResult` parameter.
- Downloading a blob and writing it are one `fetched` flag per document. A partially written blob is not modelled.
- A listed document's `storage_id` is an `Option`, and `None` stands both for a missing key (a `KeyError` at main_final_fixed.py:672) and for a null value. Both count as a failed download, whatever `fetched` says; what `get_file_download` does with `file_id=None` is not modelled.
- Generated ids (`datetime.now().timestamp()`), ISO timestamps, `mimetypes.guess_type`, `os.path.getsize` and `shutil.copy2` are parameters. A failed read or copy is `src = None`.
- Blob paths use `/`; the Windows separator is not modelled.
- The folder and tag tables are not modelled. Seeding `root` is part of `load_folders`. No code path inserts into the `tags` table.
- SqlLike.ContainsPatternMeansSubstring: `LIKE` is modelled as a case-sensitive match in which `%` and `_` typed by the user are literal. SQLite's ASCII case-insensitivity and its wildcard reading of user input are not modelled.
- Listing.LoadFiles: returns the selected rows as a map, without the row order SQLite returns, and with the case-sensitive, literal `LIKE` above.
- Icons.FileIconIsFirstMatch: lower-casing covers ASCII letters only, while Python's `str.lower` is full Unicode.
- Clock readings are integers: `last_sync_time`, the `now` that `sync_data` records and the `periodic_sync` comparison all use whole seconds, while the source uses `datetime.now().timestamp()` floats. This affects `Sync.SyncData`, `Sync.SyncDue`, `Sync.PeriodicTickGate` and `Sync.NoCycleWithinInterval`.
- Sync.NoCycleWithinInterval: timestamps are integers, while the source compares float seconds.

=== FILE: commands.dfy ===
/** The two commands that change the vault outside a sync cycle:
    `add_file_to_vault` and `delete_file`. */
module Commands {
  import opened Text
  import opened Records
  import opened Sync

  // ---------------------------------------------------------------- add

  /** What the file system reports about the picked file: its base name,
      its size and the guessed MIME type. */
  datatype SourceFile = SourceFile(baseName: string, size: nat, mimeType: Option<string>)

  /** `inserted` is false when an exception ended the command before or at
      the `INSERT`. */
  datatype Inserted = Inserted(vault: Vault, inserted: bool)

  /** The row `add_file_to_vault` inserts for `src` under id `id`. */
  function NewRecord(v: Vault, src: SourceFile, id: Id, uploadedAt: string): FileRecord {
    FileRecord(src.baseName, src.mimeType, src.size, v.currentFolder, JoinTags(v.selectedTags),
               uploadedAt, LocalPathFor(id, src.baseName), None, if v.online then New else Offline)
  }

  /** The copy-and-insert part of `add_file_to_vault`. `src` is `None` when
      reading the size or copying the file raised. The blob is copied before
      the `INSERT`, so an id that is already taken leaves the copy behind
      and inserts nothing. */
  function InsertFile(v: Vault, src: Option<SourceFile>, id: Id, uploadedAt: string): (r: Inserted)
    ensures src.None? ==> r == Inserted(v, false)
    ensures src.Some? ==> r.vault.store.blobs == v.store.blobs + {LocalPathFor(id, src.value.baseName)}
    ensures r.inserted <==> src.Some? && id !in v.store.files
    ensures !r.inserted ==> r.vault.store.files == v.store.files
    ensures r.inserted ==>
              && r.vault.store.files.Keys == v.store.files.Keys + {id}
              && (forall other :: other in v.store.files ==> r.vault.store.files[other] == v.store.files[other])
              && r.vault.store.files[id].cloudId == None
              && r.vault.store.files[id].status == (if v.online then New else Offline)
              && r.vault.store.files[id].folder == v.currentFolder
              && r.vault.store.files[id].tags == JoinTags(v.selectedTags)
              && r.vault.store.files[id].name == src.value.baseName
              && r.vault.store.files[id].size == src.value.size
              && r.vault.store.files[id].mimeType == src.value.mimeType
              && r.vault.store.files[id].uploadedAt == uploadedAt
              && r.vault.store.files[id].localPath == LocalPathFor(id, src.value.baseName)
              && r.vault.store.files[id].localPath in r.vault.store.blobs
    ensures r.vault.online == v.online && r.vault.syncInProgress == v.syncInProgress
    ensures r.vault.lastSyncTime == v.lastSyncTime && r.vault.currentFolder == v.currentFolder
    ensures r.vault.selectedTags == v.selectedTags && r.vault.searchQuery == v.searchQuery
  {
    match src
    case None => Inserted(v, false)
    case Some(s) =>
      var copied := v.store.(blobs := v.store.blobs + {LocalPathFor(id, s.baseName)});
      if id in v.store.files then Inserted(v.(store := copied), false)
      else Inserted(v.(store := copied.(files := v.store.files[id := NewRecord(v, s, id, uploadedAt)])), true)
  }

  /** `add_file_to_vault`: insert, then, when online, run `sync_new_files`
      at once. So a file added online leaves the command synced or offline,
      never new; a file added offline is offline with no storage id. */
  function AddFileToVault(v: Vault, src: Option<SourceFile>, id: Id, uploadedAt: string,
                          upload: Id -> UploadOutcome): (r: Vault)
    ensures src.None? ==> r == v
    ensures !(src.Some? && id !in v.store.files) ==> r.store.files == v.store.files
    ensures src.Some? && id !in v.store.files ==>
              && r.store.files.Keys == v.store.files.Keys + {id}
              && r.store.files[id].folder == v.currentFolder
              && r.store.files[id].tags == JoinTags(v.selectedTags)
              && r.store.files[id].name == src.value.baseName
              && r.store.files[id].size == src.value.size
              && r.store.files[id].mimeType == src.value.mimeType
              && r.store.files[id].uploadedAt == uploadedAt
              && r.store.files[id].localPath == LocalPathFor(id, src.value.baseName)
              && r.store.files[id].localPath in r.store.blobs
    ensures src.Some? && id !in v.store.files && !v.online ==>
              && r.store.files[id].status == Offline && r.store.files[id].cloudId == None
              && forall other :: other in v.store.files ==> r.store.files[other] == v.store.files[other]
    ensures src.Some? && id !in v.store.files && v.online ==>
              && (upload(id).Uploaded? ==>
                    r.store.files[id].status == Synced && r.store.files[id].cloudId == Some(upload(id).storageId))
              && (!upload(id).Uploaded? ==>
                    r.store.files[id].status == Offline && r.store.files[id].cloudId == None)
              && NothingNew(r.store.files)
              && forall other :: other in v.store.files ==>
                   r.store.files[other] == (if v.store.files[other].status == New
                                            then UploadStep(v.store.files[other], upload(other))
                                            else v.store.files[other])
    ensures forall other :: other in v.store.files ==>
              other in r.store.files && SameContent(v.store.files[other], r.store.files[other])
    ensures src.Some? ==> r.store.blobs == v.store.blobs + {LocalPathFor(id, src.value.baseName)}
    ensures r.online == v.online && r.syncInProgress == v.syncInProgress && r.lastSyncTime == v.lastSyncTime
    ensures r.currentFolder == v.currentFolder && r.selectedTags == v.selectedTags && r.searchQuery == v.searchQuery
  {
    var ins := InsertFile(v, src, id, uploadedAt);
    if ins.inserted && v.online then
      ins.vault.(store := ins.vault.store.(files := SyncNewFiles(ins.vault.store.files, upload)))
    else ins.vault
  }

  // ---------------------------------------------------------------- delete

  /** The remote calls `delete_file` makes. */
  datatype RemoteCall = DeleteStorageFile(fileId: string) | DeleteDocument(docId: Id)

  /** The outcome of the remote deletes: both calls succeed, the first raises
      (so the second is not made), or the second raises. */
  datatype RemoteDelete = BothDeleted | StorageDeleteFailed | DocumentDeleteFailed

  datatype Deleted = Deleted(vault: Vault, calls: seq<RemoteCall>)

  /** Whether `delete_file` stops at `os.remove`: the blob is there and
      removing it raises. */
  predicate BlobRemovalFails(v: Vault, id: Id, removeSucceeds: bool)
    requires id in v.store.files
  {
    var path := v.store.files[id].localPath;
    |path| > 0 && path in v.store.blobs && !removeSucceeds
  }

  /** `delete_file`. An unknown id changes nothing. Otherwise the blob is
      removed, the remote copies are deleted when online and the row has a
      storage id (their failure is only logged), and the row is deleted. */
  function DeleteFile(v: Vault, id: Id, removeSucceeds: bool, remote: RemoteDelete): (r: Deleted)
    ensures id !in v.store.files ==> r == Deleted(v, [])
    ensures id in v.store.files && BlobRemovalFails(v, id, removeSucceeds) ==> r == Deleted(v, [])
    ensures id in v.store.files && !BlobRemovalFails(v, id, removeSucceeds) ==>
              && id !in r.vault.store.files
              && v.store.files[id].localPath !in r.vault.store.blobs
              && r.vault.store.blobs == v.store.blobs - {v.store.files[id].localPath}
    ensures forall other :: other != id ==>
              (other in r.vault.store.files <==> other in v.store.files)
              && (other in v.store.files ==> r.vault.store.files[other] == v.store.files[other])
    ensures |r.calls| > 0 <==>
              id in v.store.files && !BlobRemovalFails(v, id, removeSucceeds)
              && v.online && Truthy(v.store.files[id].cloudId)
    ensures |r.calls| > 0 ==>
              && |r.calls| <= 2
              && r.calls[0] == DeleteStorageFile(v.store.files[id].cloudId.value)
              && (|r.calls| == 2 <==> remote != StorageDeleteFailed)
              && (|r.calls| == 2 ==> r.calls[1] == DeleteDocument(id))
    ensures r.vault.online == v.online && r.vault.syncInProgress == v.syncInProgress
    ensures r.vault.lastSyncTime == v.lastSyncTime && r.vault.currentFolder == v.currentFolder
    ensures r.vault.selectedTags == v.selectedTags && r.vault.searchQuery == v.searchQuery
  {
    if id !in v.store.files then Deleted(v, [])
    else if BlobRemovalFails(v, id, removeSucceeds) then Deleted(v, [])
    else
      var rec := v.store.files[id];
      var calls :=
        if v.online && Truthy(rec.cloudId) then
          [DeleteStorageFile(rec.cloudId.value)] + (if remote == StorageDeleteFailed then [] else [DeleteDocument(id)])
        else [];
      Deleted(v.(store := Store(v.store.files - {id}, v.store.blobs - {rec.localPath})), calls)
  }

  /** The local effect of a delete does not depend on what the remote did. */
  lemma DeleteIgnoresRemote(v: Vault, id: Id, removeSucceeds: bool, a: RemoteDelete, b: RemoteDelete)
    ensures DeleteFile(v, id, removeSucceeds, a).vault == DeleteFile(v, id, removeSucceeds, b).vault
  {
  }
}

=== FILE: icons.dfy ===
/** The two pure classifiers the listing uses for each row: the file-type
    icon (`get_file_icon`) and the sync-status indicator (`get_sync_icon`). */
module Icons {
  import opened Text
  import opened Records

  // ---------------------------------------------------------------- file type

  datatype FileIcon =
    | PictureAsPdf | Image | Description | TableChart | Slideshow | TextSnippet | Archive | InsertDriveFile

  /** The order in which `get_file_icon` tries the categories. */
  function Rank(icon: FileIcon): nat {
    match icon
    case PictureAsPdf => 0
    case Image => 1
    case Description => 2
    case TableChart => 3
    case Slideshow => 4
    case TextSnippet => 5
    case Archive => 6
    case InsertDriveFile => 7
  }

  /** The words whose presence in the lower-cased MIME type selects an icon. */
  function Keywords(icon: FileIcon): seq<string> {
    match icon
    case PictureAsPdf => ["pdf"]
    case Image => ["image"]
    case Description => ["word"]
    case TableChart => ["excel"]
    case Slideshow => ["powerpoint"]
    case TextSnippet => ["text", "plain"]
    case Archive => ["zip", "compressed"]
    case InsertDriveFile => []
  }

  predicate Mentions(mime: string, icon: FileIcon) {
    exists j :: 0 <= j < |Keywords(icon)| && IsSubstring(Keywords(icon)[j], mime)
  }

  lemma MentionsByKeyword(t: string)
    ensures Mentions(t, PictureAsPdf) <==> IsSubstring("pdf", t)
    ensures Mentions(t, Image) <==> IsSubstring("image", t)
    ensures Mentions(t, Description) <==> IsSubstring("word", t)
    ensures Mentions(t, TableChart) <==> IsSubstring("excel", t)
    ensures Mentions(t, Slideshow) <==> IsSubstring("powerpoint", t)
    ensures Mentions(t, TextSnippet) <==> IsSubstring("text", t) || IsSubstring("plain", t)
    ensures Mentions(t, Archive) <==> IsSubstring("zip", t) || IsSubstring("compressed", t)
    ensures !Mentions(t, InsertDriveFile)
  {
    assert Keywords(PictureAsPdf)[0] == "pdf";
    assert Keywords(Image)[0] == "image";
    assert Keywords(Description)[0] == "word";
    assert Keywords(TableChart)[0] == "excel";
    assert Keywords(Slideshow)[0] == "powerpoint";
    assert Keywords(TextSnippet)[0] == "text" && Keywords(TextSnippet)[1] == "plain";
    assert Keywords(Archive)[0] == "zip" && Keywords(Archive)[1] == "compressed";
  }

  /** `get_file_icon`. */
  function FileIconFor(mimeType: Option<string>): FileIcon {
    if mimeType.None? || mimeType.value == "" then InsertDriveFile
    else
      var t := Lower(mimeType.value);
      if IsSubstring("pdf", t) then PictureAsPdf
      else if IsSubstring("image", t) then Image
      else if IsSubstring("word", t) then Description
      else if IsSubstring("excel", t) then TableChart
      else if IsSubstring("powerpoint", t) then Slideshow
      else if IsSubstring("text", t) || IsSubstring("plain", t) then TextSnippet
      else if IsSubstring("zip", t) || IsSubstring("compressed", t) then Archive
      else InsertDriveFile
  }

  /** No type gives the generic icon; otherwise the icon is the first
      category, in `Rank` order, one of whose keywords occurs in the
      lower-cased type, and the generic icon when none does. */
  lemma FileIconIsFirstMatch(mimeType: Option<string>)
    ensures mimeType.None? || mimeType.value == "" ==> FileIconFor(mimeType) == InsertDriveFile
    ensures mimeType.Some? && mimeType.value != "" ==>
              var r := FileIconFor(mimeType);
              && (r == InsertDriveFile || Mentions(Lower(mimeType.value), r))
              && (forall c :: Rank(c) < Rank(r) ==> !Mentions(Lower(mimeType.value), c))
  {
    if mimeType.Some? && mimeType.value != "" {
      var t := Lower(mimeType.value);
      var r := FileIconFor(mimeType);
      MentionsByKeyword(t);
      forall c | Rank(c) < Rank(r)
        ensures !Mentions(t, c)
      {
        match c
        case PictureAsPdf =>
        case Image =>
        case Description =>
        case TableChart =>
        case Slideshow =>
        case TextSnippet =>
        case Archive =>
        case InsertDriveFile =>
      }
    }
  }

  /** The icon does not depend on the case of ASCII letters in the type. */
  lemma FileIconIgnoresCase(mime: string)
    ensures FileIconFor(Some(Lower(mime))) == FileIconFor(Some(mime))
  {
    LowerIdempotent(mime);
  }

  // ---------------------------------------------------------------- status

  datatype CloudIcon = CloudDone | CloudSync | CloudUpload | CloudOff
  datatype Color = Green | Orange | Blue | Grey
  datatype Indicator = Indicator(icon: CloudIcon, color: Color)

  /** `get_sync_icon` on the stored status text; any text it does not know
      shows as offline. */
  function SyncIconFor(statusText: string): (r: Indicator)
    ensures statusText != "synced" && statusText != "modified" && statusText != "new" ==>
              r == Indicator(CloudOff, Grey)
  {
    if statusText == "synced" then Indicator(CloudDone, Green)
    else if statusText == "modified" then Indicator(CloudSync, Orange)
    else if statusText == "new" then Indicator(CloudUpload, Blue)
    else Indicator(CloudOff, Grey)
  }

  /** Each status shows its own indicator, so the listing tells all four apart. */
  lemma SyncIconsDistinct(a: SyncStatus, b: SyncStatus)
    ensures SyncIconFor(StatusText(a)) == SyncIconFor(StatusText(b)) <==> a == b
  {
  }
}

=== FILE: invariants.dfy ===
/** Facts about every state the vault can reach from its commands and sync
    cycles: a record is synced exactly when it has a storage id, and no
    record stays in status `new` once a command returns. */
module Invariants {
  import opened Records
  import opened Sync
  import opened Commands

  // ---------------------------------------------------------------- consistency

  lemma AddKeepsConsistent(v: Vault, src: Option<SourceFile>, id: Id, uploadedAt: string, upload: Id -> UploadOutcome)
    requires Consistent(v.store.files)
    ensures Consistent(AddFileToVault(v, src, id, uploadedAt, upload).store.files)
  {
    var ins := InsertFile(v, src, id, uploadedAt);
    assert Consistent(ins.vault.store.files);
  }

  lemma SyncNewFilesKeepsConsistent(files: Files, upload: Id -> UploadOutcome)
    requires Consistent(files)
    ensures Consistent(SyncNewFiles(files, upload))
  {
  }

  /** The pull keeps the invariant: a pulled row is inserted as synced with
      the document's storage id, and a document without one is never
      downloaded, so never inserted. */
  lemma DownloadKeepsConsistent(store: Store, online: bool, listing: ListResult)
    requires Consistent(store.files)
    ensures Consistent(DownloadCloudChanges(store, online, listing).files)
  {
  }

  /** A listed document without a storage id ends the pull before its row is
      inserted: the download by `storage_id` comes first. */
  lemma DocumentWithoutStorageIdIsNotInserted(store: Store, doc: CloudDoc, fetched: bool, after: seq<ListedDoc>)
    requires doc.storageId.None? && doc.id !in store.files
    ensures DownloadCloudChanges(store, true, Documents([ListedDoc(doc, fetched)] + after)) == store
  {
  }

  lemma DeleteKeepsConsistent(v: Vault, id: Id, removeSucceeds: bool, remote: RemoteDelete)
    requires Consistent(v.store.files)
    ensures Consistent(DeleteFile(v, id, removeSucceeds, remote).vault.store.files)
  {
  }

  lemma SyncDataKeepsConsistent(v: Vault, upload: Id -> UploadOutcome, listing: ListResult, now: int)
    requires Consistent(v.store.files)
    ensures Consistent(SyncData(v, upload, listing, now).store.files)
  {
    if MayStart(v) {
      var pushed := SyncModifiedFiles(SyncNewFiles(v.store.files, upload));
      SyncNewFilesKeepsConsistent(v.store.files, upload);
      DownloadKeepsConsistent(v.store.(files := pushed), v.online, listing);
    }
  }

  // ---------------------------------------------------------------- nothing stays new

  /** Starting from a table with no `new` row, no command leaves one: an
      online add pushes the new row at once, an offline add marks it
      offline. */
  lemma AddLeavesNothingNew(v: Vault, src: Option<SourceFile>, id: Id, uploadedAt: string, upload: Id -> UploadOutcome)
    requires NothingNew(v.store.files)
    ensures NothingNew(AddFileToVault(v, src, id, uploadedAt, upload).store.files)
  {
    var ins := InsertFile(v, src, id, uploadedAt);
    assert NothingNew(ins.vault.store.files) || (ins.inserted && v.online);
  }

  lemma DeleteLeavesNothingNew(v: Vault, id: Id, removeSucceeds: bool, remote: RemoteDelete)
    requires NothingNew(v.store.files)
    ensures NothingNew(DeleteFile(v, id, removeSucceeds, remote).vault.store.files)
  {
  }

  lemma SyncDataLeavesNothingNew(v: Vault, upload: Id -> UploadOutcome, listing: ListResult, now: int)
    requires NothingNew(v.store.files)
    ensures NothingNew(SyncData(v, upload, listing, now).store.files)
  {
  }

  /** Consequently the push phase of a cycle uploads nothing in such a state,
      and an offline row is never retried: the cycle leaves every existing
      row exactly as it was. */
  lemma CycleNeverRetries(v: Vault, upload: Id -> UploadOutcome, listing: ListResult, now: int)
    requires NothingNew(v.store.files)
    ensures PendingUploads(v.store.files) == {}
    ensures forall id :: id in v.store.files ==> SyncData(v, upload, listing, now).store.files[id] == v.store.files[id]
  {
  }

  /** A file added while offline stays offline with no storage id through
      any later cycle, even after the vault comes back online. */
  lemma OfflineAddIsNeverUploaded(v: Vault, src: SourceFile, id: Id, uploadedAt: string,
                                  upload: Id -> UploadOutcome, upload2: Id -> UploadOutcome,
                                  listing: ListResult, now: int)
    requires !v.online && id !in v.store.files
    ensures var added := AddFileToVault(v, Some(src), id, uploadedAt, upload);
            var later := SyncData(added.(online := true), upload2, listing, now);
            && added.store.files[id].status == Offline && added.store.files[id].cloudId == None
            && later.store.files[id] == added.store.files[id]
  {
  }
}

=== FILE: listing.dfy ===
/** What `load_files` selects, and the tag-chip toggle of `load_tags`.
    The listing builds a SQL `WHERE` clause from the current folder, the
    search text and the selected tags; here that clause is a list of
    conditions, evaluated with `SqlLike.Like`, and shown equal to a plain
    description of which records are listed. */
module Listing {
  import opened Text
  import opened SqlLike
  import opened Records

  // ---------------------------------------------------------------- filter

  datatype Condition =
    | FolderIs(folder: string)            // folder = ?
    | NameLike(pattern: Pattern)          // name LIKE ?
    | AnyTagLike(patterns: seq<Pattern>)  // (tags LIKE ? OR tags LIKE ? ...)

  function TagPatterns(tags: seq<string>): (ps: seq<Pattern>)
    ensures |ps| == |tags|
    ensures forall i :: 0 <= i < |tags| ==> ps[i] == ContainsPattern(tags[i])
  {
    seq(|tags|, i requires 0 <= i < |tags| => ContainsPattern(tags[i]))
  }

  /** The `WHERE` clause `load_files` builds. */
  function BuildQuery(folder: string, search: string, selectedTags: seq<string>): seq<Condition> {
    [FolderIs(folder)]
    + (if search != "" then [NameLike(ContainsPattern(search))] else [])
    + (if |selectedTags| > 0 then [AnyTagLike(TagPatterns(selectedTags))] else [])
  }

  predicate Holds(c: Condition, rec: FileRecord) {
    match c
    case FolderIs(f) => rec.folder == f
    case NameLike(p) => Like(p, rec.name)
    case AnyTagLike(ps) => exists i :: 0 <= i < |ps| && Like(ps[i], rec.tags)
  }

  predicate Satisfies(conds: seq<Condition>, rec: FileRecord) {
    forall i :: 0 <= i < |conds| ==> Holds(conds[i], rec)
  }

  /** Which records the listing should show: those in the folder, whose name
      contains the search text when there is one, and whose tags contain at
      least one selected tag when any is selected. */
  predicate Listed(rec: FileRecord, folder: string, search: string, selectedTags: seq<string>) {
    && rec.folder == folder
    && (search == "" || IsSubstring(search, rec.name))
    && (|selectedTags| == 0 || exists i :: 0 <= i < |selectedTags| && IsSubstring(selectedTags[i], rec.tags))
  }

  /** The query agrees with the description, record by record. */
  lemma QueryMeansListed(rec: FileRecord, folder: string, search: string, selectedTags: seq<string>)
    ensures Satisfies(BuildQuery(folder, search, selectedTags), rec) <==> Listed(rec, folder, search, selectedTags)
  {
    var q := BuildQuery(folder, search, selectedTags);
    var ps := TagPatterns(selectedTags);
    ContainsPatternMeansSubstring(search, rec.name);
    forall i | 0 <= i < |selectedTags|
      ensures Like(ps[i], rec.tags) <==> IsSubstring(selectedTags[i], rec.tags)
    {
      ContainsPatternMeansSubstring(selectedTags[i], rec.tags);
    }
    assert q[0] == FolderIs(folder);
    if search != "" {
      assert q[1] == NameLike(ContainsPattern(search));
      if |selectedTags| > 0 {
        assert q[2] == AnyTagLike(ps);
        assert |q| == 3;
      } else {
        assert |q| == 2;
      }
    } else if |selectedTags| > 0 {
      assert q[1] == AnyTagLike(ps);
      assert |q| == 2;
    } else {
      assert |q| == 1;
    }
  }

  /** `load_files`: the rows of the `files` table the query selects. */
  function LoadFiles(v: Vault): (r: Files)
    ensures forall id :: id in r <==>
              id in v.store.files && Listed(v.store.files[id], v.currentFolder, v.searchQuery, v.selectedTags)
    ensures forall id :: id in r ==> r[id] == v.store.files[id]
  {
    var q := BuildQuery(v.currentFolder, v.searchQuery, v.selectedTags);
    var r := map id | id in v.store.files && Satisfies(q, v.store.files[id]) :: v.store.files[id];
    assert forall id :: id in v.store.files ==>
             (Satisfies(q, v.store.files[id]) <==> Listed(v.store.files[id], v.currentFolder, v.searchQuery, v.selectedTags)) by {
      forall id | id in v.store.files {
        QueryMeansListed(v.store.files[id], v.currentFolder, v.searchQuery, v.selectedTags);
      }
    }
    r
  }

  /** A record added with a tag selection is found by selecting any one of
      those tags (the tag test is a substring test on the joined tags, so it
      may also find records whose tags merely contain the selected text). */
  lemma SelectingAnAddedTagFindsTheRecord(rec: FileRecord, tags: seq<string>, i: nat, selectedTags: seq<string>, j: nat)
    requires rec.tags == JoinTags(tags) && i < |tags|
    requires j < |selectedTags| && selectedTags[j] == tags[i]
    ensures Listed(rec, rec.folder, "", selectedTags)
  {
    JoinContainsPart(tags, ',', i);
  }

  // ---------------------------------------------------------------- tags

  predicate NoDuplicates(s: seq<string>) {
    forall i, j :: 0 <= i < j < |s| ==> s[i] != s[j]
  }

  /** Where `list.remove(x)` removes: the first occurrence of `x`. */
  function FirstIndex(s: seq<string>, x: string): (i: nat)
    requires x in s
    ensures i < |s| && s[i] == x && x !in s[..i]
  {
    if s[0] == x then 0
    else
      var k := FirstIndex(s[1..], x);
      assert s[..k + 1] == [s[0]] + s[1..][..k];
      k + 1
  }

  /** Clicking a tag chip: a selected tag is deselected (its first
      occurrence removed, as `list.remove` does), any other tag is appended. */
  function ToggleTag(selected: seq<string>, tag: string): (r: seq<string>)
    ensures tag !in selected ==> r == selected + [tag]
    ensures tag in selected ==> exists i :: 0 <= i < |selected| && selected[i] == tag && tag !in selected[..i] &&
                                  r == selected[..i] + selected[i + 1..]
    ensures tag in selected ==> |r| == |selected| - 1 && multiset(r) == multiset(selected) - multiset{tag}
  {
    if tag in selected then
      var i := FirstIndex(selected, tag);
      assert selected == selected[..i] + [tag] + selected[i + 1..];
      selected[..i] + selected[i + 1..]
    else selected + [tag]
  }

  /** Removing the element at one index of a duplicate-free sequence drops
      exactly that element and keeps the rest duplicate-free. */
  lemma RemoveAtKeepsOthers(s: seq<string>, i: nat)
    requires NoDuplicates(s) && i < |s|
    ensures NoDuplicates(s[..i] + s[i + 1..])
    ensures s[i] !in s[..i] + s[i + 1..]
    ensures forall t :: t != s[i] ==> (t in s[..i] + s[i + 1..] <==> t in s)
  {
    var r := s[..i] + s[i + 1..];
    assert |r| == |s| - 1;
    assert forall j :: 0 <= j < |r| ==> r[j] == s[if j < i then j else j + 1];
    forall t | t != s[i] && t in s
      ensures t in r
    {
      var k :| 0 <= k < |s| && s[k] == t;
      assert r[if k < i then k else k - 1] == t;
    }
  }

  /** Toggling flips the tag's membership and no other tag's, and keeps a
      selection free of duplicates. */
  lemma ToggleFlipsOnlyTheTag(selected: seq<string>, tag: string)
    requires NoDuplicates(selected)
    ensures NoDuplicates(ToggleTag(selected, tag))
    ensures tag in ToggleTag(selected, tag) <==> tag !in selected
    ensures forall t :: t != tag ==> (t in ToggleTag(selected, tag) <==> t in selected)
  {
    var r := ToggleTag(selected, tag);
    if tag in selected {
      var i := FirstIndex(selected, tag);
      assert r == selected[..i] + selected[i + 1..];
      RemoveAtKeepsOthers(selected, i);
    } else {
      forall j, k | 0 <= j < k < |r|
        ensures r[j] != r[k]
      {
        if k == |selected| { assert r[j] == selected[j]; }
      }
    }
  }

  /** Clicking the same chip twice leaves the selection as it was: exactly
      when the tag was not selected, and up to order when it was. */
  lemma ToggleTwice(selected: seq<string>, tag: string)
    ensures tag !in selected ==> ToggleTag(ToggleTag(selected, tag), tag) == selected
    ensures NoDuplicates(selected) ==> multiset(ToggleTag(ToggleTag(selected, tag), tag)) == multiset(selected)
  {
    var once := ToggleTag(selected, tag);
    if tag !in selected {
      assert once[|selected|] == tag;
      var i := FirstIndex(once, tag);
      assert i == |selected|;
      assert once[..i] == selected;
    } else if NoDuplicates(selected) {
      ToggleFlipsOnlyTheTag(selected, tag);
      assert ToggleTag(once, tag) == once + [tag];
    }
  }
}

=== FILE: records.dfy ===
/** The local vault's data: the `files` table as a map from id to record,
    the local blob directory as a set of paths, and the flags the vault keeps
    (`online`, `sync_in_progress`, `last_sync_time`, and the current
    folder, tag selection and search text the listing uses). */
module Records {
  import opened Text

  datatype Option<T> = None | Some(value: T)

  /** Python truthiness of an optional string column: set and non-empty. */
  predicate Truthy(o: Option<string>) {
    o.Some? && |o.value| > 0
  }

  type Id = string

  datatype SyncStatus = New | Modified | Synced | Offline

  /** One row of the `files` table. */
  datatype FileRecord = FileRecord(
    name: string,
    mimeType: Option<string>,
    size: int,
    folder: string,
    tags: string,
    uploadedAt: string,
    localPath: string,
    cloudId: Option<string>,
    status: SyncStatus)

  type Files = map<Id, FileRecord>

  /** The `files` table together with the blobs present in the vault directory. */
  datatype Store = Store(files: Files, blobs: set<string>)

  datatype Vault = Vault(
    store: Store,
    online: bool,
    syncInProgress: bool,
    lastSyncTime: int,
    currentFolder: string,
    selectedTags: seq<string>,
    searchQuery: string)

  const VaultDir: string := "docvault_files"
  /** Minimum number of seconds between two periodic sync cycles. */
  const SyncInterval: int := 300

  /** The text stored in the `sync_status` column. */
  function StatusText(s: SyncStatus): string {
    match s
    case New => "new"
    case Modified => "modified"
    case Synced => "synced"
    case Offline => "offline"
  }

  /** Where a blob is kept: `docvault_files/<id>_<name>`. */
  function LocalPathFor(id: Id, name: string): string {
    VaultDir + "/" + id + "_" + name
  }

  /** The fields the sync engine never changes. */
  predicate SameContent(a: FileRecord, b: FileRecord) {
    && a.name == b.name
    && a.mimeType == b.mimeType
    && a.size == b.size
    && a.folder == b.folder
    && a.tags == b.tags
    && a.uploadedAt == b.uploadedAt
    && a.localPath == b.localPath
  }

  /** A record marked synced always knows its remote blob. */
  predicate SyncedHasCloudId(files: Files) {
    forall id :: id in files && files[id].status == Synced ==> files[id].cloudId.Some?
  }

  /** A record not marked synced has no remote blob id. */
  predicate CloudIdOnlyWhenSynced(files: Files) {
    forall id :: id in files && files[id].status != Synced ==> files[id].cloudId.None?
  }

  predicate Consistent(files: Files) {
    SyncedHasCloudId(files) && CloudIdOnlyWhenSynced(files)
  }

  /** No record waits in status `new`. */
  predicate NothingNew(files: Files) {
    forall id :: id in files ==> files[id].status != New
  }

  /** The ids the push phase would upload: the rows selected by
      `sync_status = 'new'`. */
  function PendingUploads(files: Files): (ids: set<Id>)
    ensures forall id :: id in ids <==> id in files && files[id].status == New
  {
    set id | id in files && files[id].status == New
  }

  /** The stored comma-joined tags as the list sent to the remote:
      `tags.split(",") if tags else []`. */
  function SplitTags(tags: string): seq<string> {
    if tags == "" then [] else Split(tags, ',')
  }

  /** The comma-join `",".join(tags)`: how an add stores the selected tags
      and how the pull stores the remote tag list. */
  function JoinTags(tags: seq<string>): string {
    Join(tags, ',')
  }

  /** Sending the stored tags to the remote and storing them back loses nothing. */
  lemma TagsRoundTrip(tags: string)
    ensures JoinTags(SplitTags(tags)) == tags
  {
    if tags != "" {
      JoinSplit(tags, ',');
    }
  }

  /** A selection of non-empty tags without commas reaches the remote as the
      same list. */
  lemma SelectedTagsRoundTrip(tags: seq<string>)
    requires forall i :: 0 <= i < |tags| ==> tags[i] != "" && ',' !in tags[i]
    ensures SplitTags(JoinTags(tags)) == tags
  {
    if |tags| > 0 {
      assert |Join(tags, ',')| >= |tags[0]| by {
        if |tags| > 1 {
          assert Join(tags, ',') == tags[0] + [','] + Join(tags[1..], ',');
        }
      }
      SplitJoin(tags, ',');
    }
  }
}

=== FILE: sql_like.dfy ===
/** The part of SQL's `LIKE` operator the file listing uses: a pattern
    `'%' + x + '%'` built from user text. Every character of `x` is taken
    literally and matching is case-sensitive (see README, "Left out"). */
module SqlLike {
  import opened Text

  /** `%` (any run of characters, possibly empty) or one literal character. */
  datatype Token = AnyRun | Exactly(c: char)

  type Pattern = seq<Token>

  function Literal(x: string): (p: Pattern)
    ensures |p| == |x|
    ensures forall i :: 0 <= i < |x| ==> p[i] == Exactly(x[i])
  {
    seq(|x|, i requires 0 <= i < |x| => Exactly(x[i]))
  }

  /** The pattern the listing passes as `f"%{x}%"`. */
  function ContainsPattern(x: string): Pattern {
    [AnyRun] + Literal(x) + [AnyRun]
  }

  /** `s LIKE p`. */
  predicate Like(p: Pattern, s: string)
    decreases |p| + |s|
  {
    if |p| == 0 then |s| == 0
    else match p[0]
      case AnyRun => Like(p[1..], s) || (|s| > 0 && Like(p, s[1..]))
      case Exactly(c) => |s| > 0 && s[0] == c && Like(p[1..], s[1..])
  }

  lemma {:induction false} AnyRunMatchesAll(s: string)
    ensures Like([AnyRun], s)
    decreases |s|
  {
    if |s| > 0 {
      AnyRunMatchesAll(s[1..]);
    }
  }

  /** `x%` matches exactly the strings that start with `x`. */
  lemma {:induction false} LiteralThenAny(x: string, t: string)
    ensures Like(Literal(x) + [AnyRun], t) <==> x <= t
    decreases |x|
  {
    var p := Literal(x) + [AnyRun];
    if |x| == 0 {
      assert p == [AnyRun];
      AnyRunMatchesAll(t);
    } else {
      assert p[0] == Exactly(x[0]);
      assert p[1..] == Literal(x[1..]) + [AnyRun];
      if |t| > 0 {
        LiteralThenAny(x[1..], t[1..]);
        assert x <= t <==> x[0] == t[0] && x[1..] <= t[1..] by {
          assert x == [x[0]] + x[1..];
          assert t == [t[0]] + t[1..];
        }
      }
    }
  }

  /** `%q` matches `s` exactly when `q` matches some suffix of `s`. */
  lemma {:induction false} AnyRunThen(q: Pattern, s: string)
    ensures Like([AnyRun] + q, s) <==> exists k :: 0 <= k <= |s| && Like(q, s[k..])
    decreases |s|
  {
    var p := [AnyRun] + q;
    assert p[0] == AnyRun && p[1..] == q;
    assert s[0..] == s;
    if |s| > 0 {
      AnyRunThen(q, s[1..]);
      if Like(p, s) && !Like(q, s) {
        var k :| 0 <= k <= |s| - 1 && Like(q, s[1..][k..]);
        assert s[1..][k..] == s[k + 1..];
      }
      if exists k :: 0 <= k <= |s| && Like(q, s[k..]) {
        var k :| 0 <= k <= |s| && Like(q, s[k..]);
        if k > 0 {
          assert s[1..][k - 1..] == s[k..];
        }
      }
    }
  }

  /** `s LIKE '%x%'` holds exactly when `x` occurs in `s`. */
  lemma ContainsPatternMeansSubstring(x: string, s: string)
    ensures Like(ContainsPattern(x), s) <==> IsSubstring(x, s)
  {
    var q := Literal(x) + [AnyRun];
    assert ContainsPattern(x) == [AnyRun] + q;
    AnyRunThen(q, s);
    forall k | 0 <= k <= |s|
      ensures Like(q, s[k..]) <==> x <= s[k..]
    {
      LiteralThenAny(x, s[k..]);
    }
  }
}

=== FILE: sync.dfy ===
/** The sync engine of the vault: `sync_new_files` (push), the
    `sync_modified_files` stub, `download_cloud_changes` (pull), the
    single-flight `sync_data` cycle and the `periodic_sync` trigger.

    Remote calls are not performed: each call's result is an argument.
    `upload(id)` is what happened when the row `id` was pushed, and a
    `ListResult` is the remote's answer to `list_documents`, each document
    tagged with whether fetching and saving its blob succeeded. */
module Sync {
  import opened Text
  import opened Records

  // ---------------------------------------------------------------- push

  /** What happened to one pushed row. */
  datatype UploadOutcome =
      /** blob stored as `storageId`, then the metadata document created */
    | Uploaded(storageId: string)
      /** reading the local blob or `storage.create_file` raised */
    | BlobNotStored
      /** blob stored as `storageId`, but `create_document` raised */
    | DocumentNotCreated(storageId: string)

  /** The `UPDATE` one pushed row receives. */
  function UploadStep(rec: FileRecord, o: UploadOutcome): FileRecord {
    match o
    case Uploaded(sid) => rec.(cloudId := Some(sid), status := Synced)
    case _ => rec.(status := Offline)
  }

  /** `sync_new_files`: every row in status `new` is pushed; a success records
      the storage id and marks the row synced, a failure marks it offline.
      Rows in any other status, `offline` included, are not touched. */
  function SyncNewFiles(files: Files, upload: Id -> UploadOutcome): (r: Files)
    ensures r.Keys == files.Keys
    ensures forall id :: id in files ==> SameContent(files[id], r[id])
    ensures forall id :: id in files && files[id].status != New ==> r[id] == files[id]
    ensures forall id :: id in files && files[id].status == New && upload(id).Uploaded? ==>
              r[id].status == Synced && r[id].cloudId == Some(upload(id).storageId)
    ensures forall id :: id in files && files[id].status == New && !upload(id).Uploaded? ==>
              r[id].status == Offline && r[id].cloudId == files[id].cloudId
    ensures NothingNew(r)
  {
    map id | id in files :: if files[id].status == New then UploadStep(files[id], upload(id)) else files[id]
  }

  /** The same push, written as the loop over the rows the `SELECT` returned,
      in the order it returned them. Each row's `UPDATE` touches only that row. */
  method SyncNewFilesInRowOrder(files: Files, rows: seq<Id>, upload: Id -> UploadOutcome) returns (r: Files)
    requires forall i :: 0 <= i < |rows| ==> rows[i] in files && files[rows[i]].status == New
    requires forall id :: id in files && files[id].status == New ==> id in rows
    ensures r == SyncNewFiles(files, upload)
  {
    r := files;
    var i := 0;
    while i < |rows|
      invariant 0 <= i <= |rows|
      invariant r.Keys == files.Keys
      invariant forall id :: id in files ==>
                  r[id] == (if id in rows[..i] then UploadStep(files[id], upload(id)) else files[id])
    {
      var id := rows[i];
      r := r[id := UploadStep(r[id], upload(id))];
      assert rows[..i + 1] == rows[..i] + [id];
      i := i + 1;
    }
    assert rows[..i] == rows;
  }

  /** `sync_modified_files` is a stub in the source: it changes nothing. */
  function SyncModifiedFiles(files: Files): (r: Files)
    ensures forall id :: id in files && files[id].status == Modified ==> id in r && r[id].status == Modified
    ensures r.Keys == files.Keys && forall id :: id in files ==> r[id] == files[id]
  {
    files
  }

  // ---------------------------------------------------------------- pull

  /** A metadata document of the remote `files` collection. `uploadedAt` is
      the field the push writes; `createdAt` is the remote's own creation
      time, which is what the pull reads back. */
  datatype CloudDoc = CloudDoc(
    id: Id,
    name: string,
    mimeType: Option<string>,
    size: int,
    folder: string,
    tags: seq<string>,
    uploadedAt: string,
    createdAt: string,
    storageId: Option<string>)

  /** The document `create_document` writes for a pushed row whose blob was
      stored as `storageId`; `createdAt` is assigned by the remote. */
  function UploadedDocument(id: Id, rec: FileRecord, storageId: string, createdAt: string): CloudDoc {
    CloudDoc(id, rec.name, rec.mimeType, rec.size, rec.folder, SplitTags(rec.tags),
             rec.uploadedAt, createdAt, Some(storageId))
  }

  /** The row the pull inserts for a document it did not have. */
  function RecordFromDoc(doc: CloudDoc): FileRecord {
    FileRecord(doc.name, doc.mimeType, doc.size, doc.folder, JoinTags(doc.tags),
               doc.createdAt, LocalPathFor(doc.id, doc.name), doc.storageId, Synced)
  }

  /** A pushed row, pulled on another vault, comes back with the same content,
      marked synced with the same storage id; only the timestamp becomes the
      remote's creation time. */
  lemma UploadThenPull(id: Id, rec: FileRecord, storageId: string, createdAt: string)
    requires rec.localPath == LocalPathFor(id, rec.name)
    ensures var back := RecordFromDoc(UploadedDocument(id, rec, storageId, createdAt));
            && SameContent(back, rec.(uploadedAt := createdAt))
            && back.status == Synced && back.cloudId == Some(storageId)
  {
    TagsRoundTrip(rec.tags);
  }

  /** One listed document and whether downloading and saving its blob succeeded. */
  datatype ListedDoc = ListedDoc(doc: CloudDoc, fetched: bool)

  /** The answer to `list_documents`: the documents, or an exception. */
  datatype ListResult = Documents(entries: seq<ListedDoc>) | ListFailed

  /** Whether downloading a listed document's blob succeeded. The download
      is by the document's `storage_id`, so a document without one never
      succeeds, whatever `fetched` says. */
  predicate Fetched(e: ListedDoc) {
    e.fetched && e.doc.storageId.Some?
  }

  /** `stopped` is set when a document's fetch raised and ended the batch. */
  datatype PullResult = PullResult(store: Store, stopped: bool)

  function InsertPulled(store: Store, doc: CloudDoc): Store {
    Store(store.files[doc.id := RecordFromDoc(doc)], store.blobs + {LocalPathFor(doc.id, doc.name)})
  }

  /** The loop of `download_cloud_changes` over the listed documents: a
      document whose id is already present is skipped; an absent one is
      fetched and inserted, and the first failing fetch ends the batch. */
  function PullEntries(store: Store, entries: seq<ListedDoc>): (r: PullResult)
    ensures forall id :: id in store.files ==> id in r.store.files && r.store.files[id] == store.files[id]
    ensures forall id :: id in r.store.files && id !in store.files ==>
              exists e :: e in entries && e.doc.id == id && Fetched(e) && r.store.files[id] == RecordFromDoc(e.doc)
    ensures store.blobs <= r.store.blobs
    ensures forall id :: id in r.store.files && id !in store.files ==> r.store.files[id].localPath in r.store.blobs
    ensures forall p :: p in r.store.blobs && p !in store.blobs ==>
              exists id :: id in r.store.files && id !in store.files && r.store.files[id].localPath == p
    ensures !r.stopped ==> forall e :: e in entries ==> e.doc.id in r.store.files
    ensures r.stopped ==> exists e :: e in entries && !Fetched(e) && e.doc.id !in r.store.files
    decreases |entries|
  {
    if |entries| == 0 then PullResult(store, false)
    else
      var e := entries[0];
      if e.doc.id in store.files then PullEntries(store, entries[1..])
      else if !Fetched(e) then PullResult(store, true)
      else PullEntries(InsertPulled(store, e.doc), entries[1..])
  }

  /** `download_cloud_changes`: nothing when offline or when the listing
      raised; otherwise the pull loop, whose failure is swallowed. */
  function DownloadCloudChanges(store: Store, online: bool, listing: ListResult): (r: Store)
    ensures !online || listing.ListFailed? ==> r == store
    ensures forall id :: id in store.files ==> id in r.files && r.files[id] == store.files[id]
    ensures forall id :: id in r.files && id !in store.files ==>
              listing.Documents? && exists e :: e in listing.entries && e.doc.id == id && Fetched(e) && r.files[id] == RecordFromDoc(e.doc)
    ensures store.blobs <= r.blobs
    ensures forall id :: id in r.files && id !in store.files ==> r.files[id].localPath in r.blobs
    ensures forall p :: p in r.blobs && p !in store.blobs ==>
              exists id :: id in r.files && id !in store.files && r.files[id].localPath == p
    ensures online && listing.Documents? && !PullEntries(store, listing.entries).stopped ==>
              forall e :: e in listing.entries ==> e.doc.id in r.files
    ensures online && listing.Documents? && (forall e :: e in listing.entries ==> Fetched(e)) ==>
              forall e :: e in listing.entries ==> e.doc.id in r.files && (e.doc.id !in store.files ==> r.files[e.doc.id].status == Synced)
  {
    if !online then store
    else match listing
      case ListFailed => store
      case Documents(entries) => PullEntries(store, entries).store
  }

  /** Pulling a batch in two parts is pulling the first part and, unless it
      stopped, then the second. */
  lemma {:induction false} PullAppend(store: Store, a: seq<ListedDoc>, b: seq<ListedDoc>)
    ensures PullEntries(store, a + b) ==
            (var ra := PullEntries(store, a); if ra.stopped then ra else PullEntries(ra.store, b))
    decreases |a|
  {
    if |a| > 0 {
      assert (a + b)[0] == a[0] && (a + b)[1..] == a[1..] + b;
      var e := a[0];
      if e.doc.id in store.files {
        PullAppend(store, a[1..], b);
      } else if Fetched(e) {
        PullAppend(InsertPulled(store, e.doc), a[1..], b);
      }
    } else {
      assert a + b == b;
    }
  }

  /** The first listed document that is absent and fails to fetch ends the
      batch: what was inserted before it stays, nothing after it is looked at. */
  lemma FailureStopsBatch(store: Store, before: seq<ListedDoc>, failed: ListedDoc, after: seq<ListedDoc>)
    requires !PullEntries(store, before).stopped
    requires failed.doc.id !in PullEntries(store, before).store.files && !Fetched(failed)
    ensures PullEntries(store, before + [failed] + after) == PullResult(PullEntries(store, before).store, true)
  {
    PullAppend(store, before, [failed] + after);
    assert before + [failed] + after == before + ([failed] + after);
  }

  /** When every listed id is already present, the pull changes nothing,
      whatever the fetch outcomes. */
  lemma {:induction false} PullSkipsPresent(store: Store, entries: seq<ListedDoc>)
    requires forall e :: e in entries ==> e.doc.id in store.files
    ensures PullEntries(store, entries) == PullResult(store, false)
    decreases |entries|
  {
    if |entries| > 0 {
      assert entries[0] in entries;
      PullSkipsPresent(store, entries[1..]);
    }
  }

  /** Re-running the pull on the same listing inserts nothing: a completed
      pull has every listed id, and a stopped one stops at the same document. */
  lemma {:induction false} PullIdempotent(store: Store, entries: seq<ListedDoc>)
    ensures PullEntries(PullEntries(store, entries).store, entries) == PullEntries(store, entries)
    decreases |entries|
  {
    if |entries| > 0 {
      var e := entries[0];
      if e.doc.id in store.files {
        PullIdempotent(store, entries[1..]);
      } else if Fetched(e) {
        PullIdempotent(InsertPulled(store, e.doc), entries[1..]);
      }
    }
  }

  /** After a pull that did not stop, a second pull of the same documents
      inserts nothing, whatever its fetch outcomes. */
  lemma CompletedPullIsFinal(store: Store, entries: seq<ListedDoc>, again: seq<ListedDoc>)
    requires !PullEntries(store, entries).stopped
    requires forall e :: e in again ==> exists f :: f in entries && f.doc.id == e.doc.id
    ensures PullEntries(PullEntries(store, entries).store, again).store == PullEntries(store, entries).store
  {
    var s := PullEntries(store, entries).store;
    forall e | e in again
      ensures e.doc.id in s.files
    {
      var f :| f in entries && f.doc.id == e.doc.id;
    }
    PullSkipsPresent(s, again);
  }

  // ---------------------------------------------------------------- cycle

  /** Whether `sync_data` may start: online and no cycle in progress. */
  predicate MayStart(v: Vault) {
    v.online && !v.syncInProgress
  }

  /** The guard of `sync_data` and the setting of `sync_in_progress`. */
  function BeginSync(v: Vault): Vault {
    if !MayStart(v) then v else v.(syncInProgress := true)
  }

  /** The body of a started cycle: push new, the modified stub, pull, then
      record the clock reading `now` and clear `sync_in_progress`. */
  function RunCycle(v: Vault, upload: Id -> UploadOutcome, listing: ListResult, now: int): Vault {
    var pushed := SyncModifiedFiles(SyncNewFiles(v.store.files, upload));
    var pulled := DownloadCloudChanges(v.store.(files := pushed), v.online, listing);
    v.(store := pulled, lastSyncTime := now, syncInProgress := false)
  }

  /** `sync_data`. */
  function SyncData(v: Vault, upload: Id -> UploadOutcome, listing: ListResult, now: int): (r: Vault)
    ensures !MayStart(v) ==> r == v
    ensures MayStart(v) ==> !r.syncInProgress && r.lastSyncTime == now
    ensures r.online == v.online && r.currentFolder == v.currentFolder
    ensures r.selectedTags == v.selectedTags && r.searchQuery == v.searchQuery
    ensures MayStart(v) ==> NothingNew(r.store.files)
    ensures forall id :: id in v.store.files ==>
              id in r.store.files && SameContent(v.store.files[id], r.store.files[id])
    ensures forall id :: id in v.store.files && v.store.files[id].status != New ==>
              r.store.files[id] == v.store.files[id]
    ensures MayStart(v) ==> forall id :: id in r.store.files && id !in v.store.files ==>
              r.store.files[id].status == Synced
    ensures MayStart(v) ==> forall id :: id in v.store.files && v.store.files[id].status == New ==>
              r.store.files[id] == UploadStep(v.store.files[id], upload(id))
    ensures MayStart(v) ==> r.store == DownloadCloudChanges(v.store.(files := SyncNewFiles(v.store.files, upload)), true, listing)
  {
    if !MayStart(v) then v else RunCycle(BeginSync(v), upload, listing, now)
  }

  /** A trigger while a cycle is running does nothing, and a cycle always
      ends with the flag cleared. */
  lemma SingleFlight(v: Vault, upload: Id -> UploadOutcome, listing: ListResult, now: int)
    requires MayStart(v)
    ensures BeginSync(v).syncInProgress
    ensures SyncData(BeginSync(v), upload, listing, now) == BeginSync(v)
    ensures !SyncData(v, upload, listing, now).syncInProgress
  {
  }

  /** A second cycle straight after a first one uploads nothing and, fed the
      same listing, inserts nothing. */
  lemma SyncIdempotent(v: Vault, upload: Id -> UploadOutcome, upload2: Id -> UploadOutcome,
                       listing: ListResult, now: int, now2: int)
    requires MayStart(v)
    ensures var w := SyncData(v, upload, listing, now);
            && PendingUploads(w.store.files) == {}
            && SyncData(w, upload2, listing, now2).store == w.store
  {
    var w := SyncData(v, upload, listing, now);
    var pushed := SyncModifiedFiles(SyncNewFiles(v.store.files, upload));
    var base := v.store.(files := pushed);
    var pushed2 := SyncModifiedFiles(SyncNewFiles(w.store.files, upload2));
    assert pushed2 == w.store.files;
    assert w.store.(files := pushed2) == w.store;
    if listing.Documents? {
      assert w.store == PullEntries(base, listing.entries).store;
      PullIdempotent(base, listing.entries);
    }
  }

  // ---------------------------------------------------------------- timer

  /** The condition `periodic_sync` checks on each wake-up. */
  predicate SyncDue(v: Vault, now: int) {
    v.online && now - v.lastSyncTime > SyncInterval
  }

  /** One wake-up of `periodic_sync` at clock `now`; a cycle it starts
      records `finished` as its sync time. */
  function PeriodicTick(v: Vault, now: int, upload: Id -> UploadOutcome, listing: ListResult, finished: int): Vault {
    if SyncDue(v, now) then SyncData(v, upload, listing, finished) else v
  }

  /** After a periodic cycle finishing at `finished`, no wake-up up to
      `SyncInterval` seconds later starts another one. */
  lemma NoCycleWithinInterval(v: Vault, now: int, upload: Id -> UploadOutcome, listing: ListResult, finished: int,
                              later: int, upload2: Id -> UploadOutcome, listing2: ListResult, finished2: int)
    requires SyncDue(v, now) && !v.syncInProgress
    requires later <= finished + SyncInterval
    ensures var w := PeriodicTick(v, now, upload, listing, finished);
            w.lastSyncTime == finished && PeriodicTick(w, later, upload2, listing2, finished2) == w
  {
  }

  /** A wake-up while offline, or too soon after the last sync, does nothing;
      otherwise it runs exactly the cycle `sync_data` runs. */
  lemma PeriodicTickGate(v: Vault, now: int, upload: Id -> UploadOutcome, listing: ListResult, finished: int)
    ensures !v.online || now - v.lastSyncTime <= SyncInterval ==>
              PeriodicTick(v, now, upload, listing, finished) == v
    ensures v.online && now - v.lastSyncTime > SyncInterval ==>
              PeriodicTick(v, now, upload, listing, finished) == SyncData(v, upload, listing, finished)
  {
  }
}

=== FILE: text.dfy ===
/** String helpers used by the vault: Python's substring test `x in s`,
    `sep.join(parts)`, `s.split(sep)` and an ASCII `lower()`. */
module Text {

  /** `x` occurs in `s` as a contiguous piece (Python's `x in s` on strings). */
  predicate IsSubstring(x: string, s: string) {
    exists k :: 0 <= k <= |s| && x <= s[k..]
  }

  /** Python's `sep.join(parts)` for a one-character separator. */
  function Join(parts: seq<string>, sep: char): string
  {
    if |parts| == 0 then ""
    else if |parts| == 1 then parts[0]
    else parts[0] + [sep] + Join(parts[1..], sep)
  }

  /** Python's `s.split(sep)`: always at least one piece, and no piece
      contains the separator. */
  function Split(s: string, sep: char): (parts: seq<string>)
    ensures |parts| >= 1
    ensures forall i :: 0 <= i < |parts| ==> sep !in parts[i]
  {
    if |s| == 0 then [""]
    else
      var rest := Split(s[1..], sep);
      if s[0] == sep then [""] + rest
      else [[s[0]] + rest[0]] + rest[1..]
  }

  function LowerChar(c: char): char {
    if 'A' <= c <= 'Z' then (c as int + 32) as char else c
  }

  /** `s.lower()`, restricted to ASCII letters. */
  function Lower(s: string): (r: string)
    ensures |r| == |s|
  {
    seq(|s|, i requires 0 <= i < |s| => LowerChar(s[i]))
  }

  lemma LowerIdempotent(s: string)
    ensures Lower(Lower(s)) == Lower(s)
  {
  }

  /** Splitting and re-joining gives back the original string, whatever it is. */
  lemma {:induction false} JoinSplit(s: string, sep: char)
    ensures Join(Split(s, sep), sep) == s
    decreases |s|
  {
    if |s| > 0 {
      var rest := Split(s[1..], sep);
      JoinSplit(s[1..], sep);
      assert s == [s[0]] + s[1..];
      if s[0] == sep {
        var parts := [""] + rest;
        assert parts[1..] == rest;
        assert Join(parts, sep) == "" + [sep] + Join(rest, sep);
      } else {
        var parts := [[s[0]] + rest[0]] + rest[1..];
        if |rest| == 1 {
          assert parts == [[s[0]] + rest[0]];
        } else {
          assert parts[1..] == rest[1..];
          assert Join(rest, sep) == rest[0] + [sep] + Join(rest[1..], sep);
          assert Join(parts, sep) == [s[0]] + rest[0] + [sep] + Join(rest[1..], sep);
        }
      }
    }
  }

  lemma {:induction false} SplitWithoutSep(t: string, sep: char)
    requires sep !in t
    ensures Split(t, sep) == [t]
    decreases |t|
  {
    if |t| > 0 {
      SplitWithoutSep(t[1..], sep);
      assert [t[0]] + t[1..] == t;
    }
  }

  lemma {:induction false} SplitAfterPiece(t: string, sep: char, rest: string)
    requires sep !in t
    ensures Split(t + [sep] + rest, sep) == [t] + Split(rest, sep)
    decreases |t|
  {
    var s := t + [sep] + rest;
    if |t| == 0 {
      assert s[0] == sep && s[1..] == rest;
    } else {
      assert s[0] == t[0] && s[1..] == t[1..] + [sep] + rest;
      SplitAfterPiece(t[1..], sep, rest);
      assert [t[0]] + t[1..] == t;
    }
  }

  /** Joining pieces free of the separator and splitting again recovers them. */
  lemma {:induction false} SplitJoin(parts: seq<string>, sep: char)
    requires |parts| >= 1
    requires forall i :: 0 <= i < |parts| ==> sep !in parts[i]
    ensures Split(Join(parts, sep), sep) == parts
    decreases |parts|
  {
    if |parts| == 1 {
      SplitWithoutSep(parts[0], sep);
    } else {
      SplitJoin(parts[1..], sep);
      SplitAfterPiece(parts[0], sep, Join(parts[1..], sep));
      assert [parts[0]] + parts[1..] == parts;
    }
  }

  /** Every piece of a joined string occurs in it. */
  lemma {:induction false} JoinContainsPart(parts: seq<string>, sep: char, i: nat)
    requires i < |parts|
    ensures IsSubstring(parts[i], Join(parts, sep))
    decreases |parts|
  {
    var s := Join(parts, sep);
    if i == 0 {
      assert parts[0] <= s[0..];
    } else {
      JoinContainsPart(parts[1..], sep, i - 1);
      var rest := Join(parts[1..], sep);
      var k :| 0 <= k <= |rest| && parts[i] <= rest[k..];
      var off := |parts[0]| + 1;
      assert s == parts[0] + [sep] + rest;
      assert s[off + k..] == rest[k..];
    }
  }
}
